=== FILE: README.md ===
# Snowflake metadata API: a Dafny model of its query building and row shaping

The service answers three questions about a table in a Snowflake warehouse.
It lists the schemas of a database. It describes a table's columns by name,
type and comment. It computes per-column statistics: non-null count, mean,
min, max and distinct count. The warehouse does all the real work. What the
service itself decides is which SQL text to send and how to read the returned
rows by position. This project models that layer.

- `Common` (common.dfy): cells (`Option<string>`, None for SQL NULL), rows
  (`seq<Cell>`), the error datatype, and `Within`, which models
  `except Exception: raise Exception(...)`.
- `Helper` (helper.dfy): `clean_data_type`, which strips the parameter list
  from a type name.
- `Queries` (queries.dfy): the three SQL templates. Each has a parser that
  inverts it, for round-trip and collision lemmas.
- `OrderedDict` (ordered_dict.dfy): Python's insertion-ordered `dict`.
  Assigning to a key that is already present replaces its value in place.
- `Metrics` (metrics.dfy): the numeric/categorical metric choice, the six-slot
  stats `SELECT`, and the positional read-back.
- `Service` (service.dfy): `SnowflakeService`. The warehouse is a function
  parameter `Warehouse = (query, database) -> Result<seq<Row>>`. Every
  property holds whatever rows or errors it returns. The exceptions are the
  read-back lemmas `Service.ColumnStatsAsWrittenLosesMean` and
  `Service.ColumnStatsInSelectOrderKeepsMean`: they require a warehouse that
  answers the stats `SELECT` faithfully.

The source's `except Exception` handlers also catch an `IndexError` on a short
row and the `AttributeError` from `clean_data_type(None)`. Both are modelled
as error values (`IndexOutOfRange`, `NoneHasNoFind`), so every operation is
total. Python's `str()` of a cell is `Show`, which renders None as `"None"`.

Two behaviours of the code are easy to miss:
- The statistics operation does not check for an empty describe result. It
  returns an empty dict (`Service.MetricsOnDescribeResult`).
- The 404 raised on an empty result is caught by the same operation's
  `except Exception`. It reaches the caller only as a wrapped error whose
  context names the operation (the first `ensures` of `Service.GetSchemas`
  and `Service.GetTableMetadata`).

## Model

| member | source | states |
|---|---|---|
| Helper.Find | app/utils/helper.py:3 | `str.find` for one character: -1 exactly when the character is absent; otherwise it is at the returned index and not before it |
| Helper.CleanDataType | app/utils/helper.py:1-8 | the result is a prefix of the input with no `(`; it is the whole input when there is no `(`; otherwise the input continues with `(` right after it |
| Helper.CleanDataTypeCutsAtFirstParen | app/utils/helper.py:3-7 | when `i` is the index of the first `(`, the result is exactly `t[..i]` |
| Helper.CleanDataTypeIdempotent | app/utils/helper.py:1-8 | normalising twice equals normalising once |
| Helper.CleanVarcharExample | app/utils/helper.py:5-7 | `VARCHAR(16)` normalises to `VARCHAR` |
| Helper.CleanNumberExample | app/utils/helper.py:5-7 | `NUMBER(38,0)` normalises to `NUMBER` |
| Helper.CleanFloatExample | app/utils/helper.py:8 | `FLOAT` is returned unchanged |
| Queries.ShowSchemasQuery | app/db/queries.py:1-3 | the database text follows the fixed prefix verbatim, with nothing added |
| Queries.ShowTablesQuery | app/db/queries.py:6-8 | the database appears before the schema, although it is the second parameter; both are verbatim and joined by `.` |
| Queries.ShowTableInfo | app/db/queries.py:10-14 | `describe table` then database, schema and table, verbatim and joined by dots, between the literal's leading newline and trailing indentation |
| Queries.SchemasQueryRoundTrip | app/db/queries.py:1-3 | the parser recovers the database from the query, and every query it accepts is the template's output |
| Queries.TablesQueryRoundTrip | app/db/queries.py:6-8 | when the database holds no `.`, the parser recovers (database, schema) from the query |
| Queries.TablesQueryParseSound | app/db/queries.py:6-8 | every query the list-tables parser accepts is the template applied to what it returns |
| Queries.TablesQueryDotCollision | app/db/queries.py:8 | no escaping: database `a.b` with schema `c` gives the same text as database `a` with schema `b.c` |
| Queries.DescribeQueryRoundTrip | app/db/queries.py:10-14 | when database and schema hold no `.`, the parser recovers all three identifiers |
| Queries.DescribeQueryParseSound | app/db/queries.py:10-14 | every query the describe parser accepts is the template applied to what it returns |
| OrderedDict.Put | app/services/snowflake_service.py:69-79 | `d[k] = v` adds `k` to the key set; an existing key keeps its position; a new key is appended at the end |
| OrderedDict.PutGet | app/services/snowflake_service.py:69-79 | after `d[k] = v`, `k` maps to `v` and every other key keeps its value |
| OrderedDict.PutDistinct | app/services/snowflake_service.py:69-79 | assignment never duplicates a key |
| OrderedDict.Get | app/services/snowflake_service.py:69-79 | `d[k]` is present iff `k` is a key, and is then the value stored with `k` |
| OrderedDict.MapValues | app/services/snowflake_service.py:83-94 | a loop over `items()` that fills a new dict succeeds iff every step succeeds; it then has the same keys in the same order, each holding its step's value; otherwise it fails with the error of the first failing step, every earlier step having succeeded |
| Metrics.SelectMetrics | app/services/snowflake_service.py:68-79 | a type in {NUMBER, INTEGER, DECIMAL, FLOAT, DOUBLE} gets exactly {non_null_count, mean, min, max}, any other type exactly {non_null_count, unique_count}; each key holds its aggregate over the column |
| Metrics.MetricsForSelects | app/services/snowflake_service.py:65-79 | a describe row's metric set is chosen by its type with the parameters cut off, and each metric aggregates the column's `str()` text |
| Metrics.MetricsIgnoreParameters | app/services/snowflake_service.py:65-68 | only the text before the first `(` decides the metric set |
| Metrics.NumberIsNumeric | app/services/snowflake_service.py:65-68 | `NUMBER(38,0)` is classified as numeric |
| Metrics.LowerCaseNumberIsCategorical | app/services/snowflake_service.py:65-68 | classification is case-sensitive: `number(38,0)` is categorical |
| Metrics.NotNumericByInitial | app/services/snowflake_service.py:68 | no type name that starts with a lower-case letter is numeric |
| Metrics.SelectSlots | app/services/snowflake_service.py:103-108 | six slots: the tag, then non_null_count, unique_count, mean, min, max; a slot is computed iff its metric was selected, and holds `null` otherwise |
| Metrics.RenderSlot | app/services/snowflake_service.py:103-108 | every SELECT item ends with ` AS ` and its alias; the tag is exactly `'column' AS column_name`; a computed item starts with its expression, a missing metric with `null` |
| Metrics.SelectItemText | app/services/snowflake_service.py:104-108 | the item for each metric is its expression when the column has it, `null` otherwise, followed by ` AS ` and the metric's alias |
| Metrics.BuildColumnStatsQuery | app/services/snowflake_service.py:101-114 | the query opens with `SELECT` and the quoted column tag, and ends with `FROM schema.table`, which does not name the database |
| Metrics.StatsQueryText | app/services/snowflake_service.py:101-114 | the emitted text is `SELECT`, then the tag and the items for non_null_count, unique_count, mean, min and max in that order, joined by `, `, then `FROM schema.table` |
| Metrics.ReadPosition | app/services/snowflake_service.py:89-93 | each statistic is read from one of positions 1 to 5 |
| Metrics.ReadPositionInjective | app/services/snowflake_service.py:89-93 | two statistics share a read position only if they are the same statistic, so each position is read once |
| Metrics.ReadStats | app/services/snowflake_service.py:88-94 | an IndexError iff there is no row or the first row has fewer than six cells; otherwise each statistic is the cell at its read position |
| Metrics.AsWrittenMisplacesAllButCount | app/services/snowflake_service.py:88-112 | the read position of a statistic equals its SELECT position only for non_null_count |
| Metrics.ReadBackOfAnswer | app/services/snowflake_service.py:88-112 | against a warehouse that answers the SELECT faithfully, each statistic is the value of the slot at its read position |
| Metrics.AsWrittenPositions | app/services/snowflake_service.py:88-112 | the as-written positions for mean, min, max and unique_count hold the unique_count, mean, min and max slots |
| Metrics.AsWrittenNumericReadBack | app/services/snowflake_service.py:88-112 | as written, a numeric column gets a null mean, AVG as min, MIN as max, and MAX as unique_count |
| Metrics.AsWrittenCategoricalReadBack | app/services/snowflake_service.py:88-112 | as written, a categorical column gets its distinct count as mean and a null unique_count |
| Metrics.SelectOrderReadsOwnSlot | app/services/snowflake_service.py:103-112 | read in SELECT order, each statistic is its metric's value when the column has that metric, and null otherwise |
| Metrics.SelectOrderNumericReadBack | app/services/snowflake_service.py:68-74 | read in SELECT order, a numeric column gets COUNT, AVG, MIN and MAX, and a null unique_count |
| Metrics.SelectOrderCategoricalReadBack | app/services/snowflake_service.py:75-79 | read in SELECT order, a categorical column gets COUNT and COUNT DISTINCT, with null mean, min and max |
| Metrics.SelectOrderBranchStats | app/services/snowflake_service.py:68-112 | read in SELECT order, with non-null aggregates, a statistic is non-null iff the column's branch selected it; exactly one branch is populated |
| Common.Within | app/services/snowflake_service.py:36-37 | `except Exception: raise Exception(...)`: a success passes through unchanged, a failure is wrapped with the operation's context around its cause |
| Service.ExecuteQuery | app/services/snowflake_service.py:8-19 | passes the warehouse's rows through unchanged; any failure becomes an execution error wrapping the cause |
| Service.SchemaNames | app/services/snowflake_service.py:34 | succeeds iff every row has index 1, and is then no longer than the input; otherwise an IndexError |
| Service.SchemaNamesAppend | app/services/snowflake_service.py:34 | filtering distributes over concatenation, so names come out in row order |
| Service.SchemaNamesMembers | app/services/snowflake_service.py:34 | a name is returned iff some row carries it, not None, at index 1 |
| Service.FetchSchemas | app/services/snowflake_service.py:29-35 | the try body: a failed query's error wrapped once, NotFound for no rows, otherwise the filtered names |
| Service.GetSchemas | app/services/snowflake_service.py:26-37 | every error is wrapped with the schemas context; a failed query is wrapped twice; an empty result is a wrapped NotFound; otherwise the filtered names |
| Service.GetSchemasAllNoneIsEmptySuccess | app/services/snowflake_service.py:31-34 | the emptiness check is on the rows: rows whose names are all None give an empty success, not NotFound |
| Service.AllNoneNames | app/services/snowflake_service.py:34 | rows whose `row[1]` are all None yield no names |
| Service.Description | app/services/snowflake_service.py:49 | a truthy comment is kept; None or empty gives `No description`; the result is never empty |
| Service.DescribeColumns | app/services/snowflake_service.py:48-51 | succeeds iff every row has index 9; then one record per row, in order, from positions 0, 1 and 9 |
| Service.DescribeColumnsExample | app/services/snowflake_service.py:48-51 | columns `ID NUMBER(38,0)` and `NAME VARCHAR(50)` with no comments describe as two records with `No description` |
| Service.FetchMetadata | app/services/snowflake_service.py:42-52 | the try body: a failed query's error wrapped once, NotFound for no rows, otherwise the column records |
| Service.GetTableMetadata | app/services/snowflake_service.py:39-54 | every error is wrapped with the table's metadata context; an empty result is a wrapped NotFound; otherwise the described columns |
| Service.ColumnSpec | app/services/snowflake_service.py:65 | a row yields its name and metric set iff it has index 1 and its type cell is not None; an IndexError on a shorter row, an AttributeError on a None type |
| Service.ColumnSpecs | app/services/snowflake_service.py:63-79 | the first loop succeeds iff every describe row yields a spec; otherwise it fails with the error of the first row that yields none |
| Service.ColumnSpecsKeys | app/services/snowflake_service.py:63-79 | the first loop's dict has distinct keys, exactly the set of column names |
| Service.ColumnSpecsLastWins | app/services/snowflake_service.py:64-79 | a duplicate column name holds the metric set of its last row |
| Service.ColumnStats | app/services/snowflake_service.py:84-94 | one column's stats query: a failed query's error wrapped once; an IndexError iff the answer has no row or its first row shorter than six; otherwise each statistic is the first row's cell at its read position |
| Service.CollectStats | app/services/snowflake_service.py:83-94 | the second loop: succeeds iff every column's stats query does, keeping the first loop's keys and order, each name holding its column's statistics; otherwise the first failing column's error |
| Service.FetchMetrics | app/services/snowflake_service.py:59-96 | the try body: a failed describe wrapped once; no rows give an empty dict; a row that yields no spec gives the first such row's error; once every row yields a spec, the outcome is the second loop's, so a failing stats query gives the first failing column's error; a success has the first loop's keys in its order |
| Service.MetricsIn | app/services/snowflake_service.py:56-99 | every error is wrapped with the table's metrics context |
| Service.GetTableMetrics | app/services/snowflake_service.py:56-99 | the operation as written; every error is wrapped with the table's metrics context |
| Service.GetTableMetricsInSelectOrder | app/services/snowflake_service.py:56-112 | the operation reading each statistic from its own SELECT slot; every error is wrapped in the same way |
| Service.GetTableMetricsLosesMean | app/services/snowflake_service.py:56-112 | as written, when the call succeeds and a numeric column's stats query is answered faithfully, that column's entry has a null mean and its MAX as unique_count |
| Service.GetTableMetricsInSelectOrderKeepsMean | app/services/snowflake_service.py:56-112 | the corrected operation, under the same conditions, gives the column's AVG as mean and a null unique_count |
| Service.MetricsOnDescribeResult | app/services/snowflake_service.py:60-64 | no emptiness check: no describe rows give an empty dict, where the metadata operation gives NotFound; a failed describe is wrapped twice |
| Service.MetricsKeys | app/services/snowflake_service.py:63-96 | the returned dict has distinct keys, exactly the column names of the describe result |
| Service.MetricsLastRowWins | app/services/snowflake_service.py:64-96 | under each name is the result of the stats query built from that name's last describe row |
| Service.ColumnStatsAsWrittenLosesMean | app/services/snowflake_service.py:84-94 | as written, against a faithful warehouse, every numeric column's mean is null and its unique_count is its MAX |
| Service.ColumnStatsInSelectOrderKeepsMean | app/services/snowflake_service.py:84-112 | read in SELECT order, a numeric column's mean is its AVG value and its unique_count is null |

## Left out

- `app/db/connection.py`: opening a Snowflake connection with fixed credentials is network I/O through a foreign library. The warehouse parameter stands in for it, and its failure for any connection failure.
- Connection and cursor lifecycle in `_execute_query`: closing is not modelled. If `cursor.close()` or `conn.close()` in the `finally` block raises, that exception replaces the returned rows or the error already raised, and it is not wrapped as an execution error. `Service.ExecuteQuery` always wraps a failure, so the model cannot produce that outcome.
- `app/main.py`: FastAPI routing, conversion of every exception to HTTP 500, `print` logging and the constant `/health` answer are framework glue.
- The values of COUNT, AVG, MIN and MAX, including AVG's floating point: the warehouse computes them. A faithful warehouse is modelled as a function `eval` from expression text to cell.
- Error message text: errors are a datatype that carries the wrapping context and the cause, not formatted strings.
- Non-text cell values (numbers, booleans) are carried as their text. The truthiness test `row[9] or ...` is modelled for text, where only None and the empty string are false.
- JSON serialisation of the responses is outside the service. So is name resolution: the warehouse resolves the stats query's `FROM schema.table` in the database of the connection opened for `database`.
- `Queries.ShowTablesQuery` is modelled as a template only: the service imports it but no operation calls it.
- Service.MetricsKeys: states the key set and that keys are distinct, not that keys appear in the first-occurrence order of the describe rows.

## Findings

| source | as written | input that shows it | evidently intended | confidence | as-written member | corrected member |
|---|---|---|---|---|---|---|
| app/services/snowflake_service.py:88-94 | the stats row is read as non_null_count, mean, min, max, unique_count at positions 1 to 5. The `SELECT` on line 112 puts unique_count, mean, min and max at positions 2 to 5 | any numeric column, e.g. `ID NUMBER(38,0)`: mean comes back null (the `null AS unique_count` slot) and unique_count holds MAX. For a categorical column, mean holds the distinct count and unique_count is null | each statistic read from the position its own slot occupies | not executed | Metrics.AsWrittenNumericReadBack | Metrics.SelectOrderNumericReadBack |

`Service.GetTableMetrics` keeps the read-back as written, so the model shows
what the service returns today. `Service.GetTableMetricsInSelectOrder` is the
corrected operation. `Metrics.SelectOrderBranchStats` proves the per-branch
promise for it: a numeric column gets mean, min and max, and a categorical one
gets unique_count. `Service.ColumnStatsAsWrittenLosesMean` and
`Service.ColumnStatsInSelectOrderKeepsMean` carry the comparison up to the
per-column query. `Service.GetTableMetricsLosesMean` and
`Service.GetTableMetricsInSelectOrderKeepsMean` carry it up to the whole
operation. `Metrics.StatsQueryText` pins the slot order in the emitted SQL
text, so the order the read-back lemmas assume is the order the query sends.

=== FILE: common.dfy ===
/**
  Values shared by every layer of the metadata service: warehouse cells and
  rows, the errors the service raises, and the result type that carries them.
 */
module Common {

  datatype Option<+T> = None | Some(value: T)

  /** One value of a result row: SQL NULL (Python's None) or its text. */
  type Cell = Option<string>

  /** One row as returned by the warehouse cursor, read by position. */
  type Row = seq<Cell>

  /** Python's `str()` of a cell, as used by f-strings: None renders as "None". */
  function Show(c: Cell): (s: string)
    ensures c.Some? ==> s == c.value
  {
    match c
    case None => "None"
    case Some(t) => t
  }

  /** Python truthiness of a text cell: None and the empty string are false. */
  predicate Truthy(c: Cell) {
    c.Some? && c.value != ""
  }

  /** The operation whose `except Exception` handler wrapped an error. */
  datatype Context =
    | ExecutingQuery
    | FetchingSchemas
    | FetchingMetadata(table: string)
    | FetchingMetrics(table: string)

  /**
    The exceptions the service can raise. Message text is not modelled;
    a wrapping handler adds its context in front of the cause.
   */
  datatype Error =
    | WarehouseFault(detail: string)       // raised by the connector or the warehouse
    | NotFound                             // the 404 HTTPException on an empty result
    | IndexOutOfRange                      // IndexError: a row shorter than the read index
    | NoneHasNoFind                        // AttributeError: a None type name given to the normaliser
    | Wrapped(context: Context, cause: Error)

  datatype Result<+T> = Ok(value: T) | Err(error: Error) {

    predicate IsFailure() {
      Err?
    }

    function PropagateFailure<U>(): Result<U>
      requires Err?
    {
      Err(error)
    }

    function Extract(): T
      requires Ok?
    {
      value
    }
  }

  /**
    The effect of `try: ... except Exception as e: raise Exception(f"...{e}")`:
    a success passes through, a failure gains `ctx` in front of its cause.
   */
  function Within<T>(ctx: Context, r: Result<T>): (w: Result<T>)
    ensures r.Ok? ==> w == r
    ensures r.Err? ==> w == Err(Wrapped(ctx, r.error))
  {
    match r
    case Ok(v) => Ok(v)
    case Err(e) => Err(Wrapped(ctx, e))
  }
}

=== FILE: helper.dfy ===
/**
  The data type normaliser: strips the parameter list from a warehouse type
  name (`VARCHAR(16)` becomes `VARCHAR`) so that it can be classified.
 */
module Helper {

  /** Python's `s.find(c)` for a one-character needle: the first index of `c`, or -1. */
  function Find(s: string, c: char): (i: int)
    ensures -1 <= i < |s|
    ensures i == -1 <==> c !in s
    ensures 0 <= i ==> s[i] == c && c !in s[..i]
  {
    if |s| == 0 then -1
    else if s[0] == c then 0
    else
      var j := Find(s[1..], c);
      if j == -1 then -1
      else
        assert s[..j + 1] == [s[0]] + s[1..][..j];
        j + 1
  }

  /**
    `clean_data_type`: the part of `t` before its first `(`, or all of `t`
    when it has none. The result is the longest prefix of `t` free of `(`.
   */
  function CleanDataType(t: string): (r: string)
    ensures r <= t
    ensures '(' !in r
    ensures '(' !in t ==> r == t
    ensures '(' in t ==> |r| < |t| && t[|r|] == '('
  {
    var i := Find(t, '(');
    if i != -1 then t[..i] else t
  }

  /** Cleaning a cleaned type changes nothing. */
  lemma CleanDataTypeIdempotent(t: string)
    ensures CleanDataType(CleanDataType(t)) == CleanDataType(t)
  {
  }

  /** The result is `t[..i]` for the first index `i` of `(`: no earlier `(` exists. */
  lemma CleanDataTypeCutsAtFirstParen(t: string, i: nat)
    requires i < |t| && t[i] == '(' && '(' !in t[..i]
    ensures CleanDataType(t) == t[..i]
  {
  }

  /** A length parameter is stripped: `VARCHAR(16)` is classified as `VARCHAR`. */
  lemma CleanVarcharExample()
    ensures CleanDataType("VARCHAR(16)") == "VARCHAR"
  {
    var v := "VARCHAR(16)";
    assert v[..7] == "VARCHAR";
    CleanDataTypeCutsAtFirstParen(v, 7);
  }

  /** Precision and scale are stripped: `NUMBER(38,0)` is classified as `NUMBER`. */
  lemma CleanNumberExample()
    ensures CleanDataType("NUMBER(38,0)") == "NUMBER"
  {
    var n := "NUMBER(38,0)";
    assert n[..6] == "NUMBER";
    CleanDataTypeCutsAtFirstParen(n, 6);
  }

  /** A type without parameters is returned unchanged. */
  lemma CleanFloatExample()
    ensures CleanDataType("FLOAT") == "FLOAT"
  {
    var f := "FLOAT";
    assert f == ['F', 'L', 'O', 'A', 'T'];
  }
}

=== FILE: metrics.dfy ===
/**
  Per-column statistics: which metrics a column gets from its normalised
  type, the six-slot SELECT that computes them in one row, and how that row
  is read back into the five statistic fields.
 */
module Metrics {
  import opened Common
  import Helper

  datatype MetricKey = NonNullCount | UniqueCount | Mean | Min | Max

  /** The metrics chosen for one column: each key maps to the SQL expression computing it. */
  type MetricSpec = map<MetricKey, string>

  /** The type names classified as numeric, compared exactly (case-sensitive). */
  const NumericTypes: seq<string> := ["NUMBER", "INTEGER", "DECIMAL", "FLOAT", "DOUBLE"]

  const NumericKeys: set<MetricKey> := {NonNullCount, Mean, Min, Max}
  const CategoricalKeys: set<MetricKey> := {NonNullCount, UniqueCount}

  /** The SQL aggregate that computes metric `k` over `column`. */
  function Aggregate(k: MetricKey, column: string): string {
    match k
    case NonNullCount => "COUNT(" + column + ")"
    case UniqueCount => "COUNT(DISTINCT " + column + ")"
    case Mean => "AVG(" + column + ")"
    case Min => "MIN(" + column + ")"
    case Max => "MAX(" + column + ")"
  }

  /**
    The metric set for a column whose normalised type is `dataType`: count,
    mean, min and max for a numeric type, count and distinct count otherwise.
   */
  function SelectMetrics(column: string, dataType: string): (m: MetricSpec)
    ensures dataType in NumericTypes ==> m.Keys == NumericKeys
    ensures dataType !in NumericTypes ==> m.Keys == CategoricalKeys
    ensures forall k :: k in m ==> m[k] == Aggregate(k, column)
  {
    if dataType in NumericTypes then
      map[NonNullCount := "COUNT(" + column + ")",
          Mean := "AVG(" + column + ")",
          Min := "MIN(" + column + ")",
          Max := "MAX(" + column + ")"]
    else
      map[NonNullCount := "COUNT(" + column + ")",
          UniqueCount := "COUNT(DISTINCT " + column + ")"]
  }

  /** The metric set of a column as the service picks it: from the column's name text and raw declared type. */
  function MetricsFor(column: Cell, rawType: string): MetricSpec {
    SelectMetrics(Show(column), Helper.CleanDataType(rawType))
  }

  /**
    A column's metrics as the service picks them: the numeric set when the
    normalised type is numeric, the categorical one otherwise, each an
    aggregate over the column's name as Python's `str` renders it.
   */
  lemma MetricsForSelects(column: Cell, rawType: string)
    ensures var m := MetricsFor(column, rawType);
      && (Helper.CleanDataType(rawType) in NumericTypes ==> m.Keys == NumericKeys)
      && (Helper.CleanDataType(rawType) !in NumericTypes ==> m.Keys == CategoricalKeys)
      && forall k :: k in m ==> m[k] == Aggregate(k, Show(column))
  {
  }

  /** Only the text before the first `(` decides the metric set. */
  lemma MetricsIgnoreParameters(column: Cell, base: string, params: string)
    requires '(' !in base
    ensures MetricsFor(column, base + "(" + params) == MetricsFor(column, base)
  {
    var t := base + "(" + params;
    Helper.CleanDataTypeCutsAtFirstParen(t, |base|);
    assert t[..|base|] == base;
  }

  /** Upper-case `NUMBER(38,0)` is numeric. */
  lemma NumberIsNumeric(column: Cell)
    ensures MetricsFor(column, "NUMBER(38,0)").Keys == NumericKeys
  {
    Helper.CleanNumberExample();
  }

  /** Classification is case-sensitive: lower-case `number(38,0)` falls into the categorical branch. */
  lemma LowerCaseNumberIsCategorical(column: Cell)
    ensures MetricsFor(column, "number(38,0)").Keys == CategoricalKeys
  {
    LowerCaseNumberCleans();
    NotNumericByInitial("number");
  }

  /** A type name starting with a lower-case letter is never numeric. */
  lemma NotNumericByInitial(t: string)
    requires |t| > 0 && 'a' <= t[0] <= 'z'
    ensures t !in NumericTypes
  {
    assert forall i | 0 <= i < |NumericTypes| :: 'A' <= NumericTypes[i][0] <= 'Z';
  }

  lemma LowerCaseNumberCleans()
    ensures Helper.CleanDataType("number(38,0)") == "number"
  {
    var n := "number(38,0)";
    assert n[..6] == "number";
    Helper.CleanDataTypeCutsAtFirstParen(n, 6);
  }

  /** One item of the stats SELECT list. */
  datatype Slot =
    | Tag(column: string)                   // the literal column-name tag
    | Computed(expr: string, alias: string) // a metric the column has
    | NullSlot(alias: string)               // `null` for a metric it lacks

  /** The column alias of each metric's slot. */
  function Alias(k: MetricKey): string {
    match k
    case NonNullCount => "non_null_count"
    case UniqueCount => "unique_count"
    case Mean => "mean_"
    case Min => "min_"
    case Max => "max_"
  }

  /** The position of metric `k` in the SELECT list, after the tag at 0. */
  function SelectPosition(k: MetricKey): (p: nat)
    ensures 1 <= p <= 5
  {
    match k
    case NonNullCount => 1
    case UniqueCount => 2
    case Mean => 3
    case Min => 4
    case Max => 5
  }

  /** The slot for metric `k`: its expression when `m` has it, a null placeholder otherwise. */
  function MetricSlot(m: MetricSpec, k: MetricKey): Slot {
    if k in m then Computed(m[k], Alias(k)) else NullSlot(Alias(k))
  }

  /**
    The SELECT list of one column's stats query: the tag, then one slot per
    metric in the fixed order non_null_count, unique_count, mean, min, max.
   */
  function SelectSlots(column: string, m: MetricSpec): (slots: seq<Slot>)
    ensures |slots| == 6
    ensures slots[0] == Tag(column)
    ensures forall k :: slots[SelectPosition(k)] == MetricSlot(m, k)
    ensures forall k :: slots[SelectPosition(k)].Computed? <==> k in m
  {
    [Tag(column), MetricSlot(m, NonNullCount), MetricSlot(m, UniqueCount),
     MetricSlot(m, Mean), MetricSlot(m, Min), MetricSlot(m, Max)]
  }

  /** The alias a SELECT item is named by. */
  function SlotAlias(s: Slot): string {
    match s
    case Tag(_) => "column_name"
    case Computed(_, a) => a
    case NullSlot(a) => a
  }

  /** The SQL text of one SELECT item: its value expression, then ` AS ` and its alias. */
  function RenderSlot(s: Slot): (r: string)
    ensures var suffix := " AS " + SlotAlias(s);
      |suffix| <= |r| && r[|r| - |suffix|..] == suffix
    ensures s.Tag? ==> "'" + s.column + "'" <= r
    ensures s.Tag? ==> r == "'" + s.column + "' AS column_name"
    ensures s.Computed? ==> s.expr <= r
    ensures s.NullSlot? ==> "null" <= r
  {
    match s
    case Tag(c) => "'" + c + "' AS column_name"
    case Computed(e, a) => e + " AS " + a
    case NullSlot(a) => "null AS " + a
  }

  /**
    The item for metric `k` in a column's stats query: the metric's
    expression when the column has it, `null` otherwise, named by the
    metric's alias.
   */
  lemma SelectItemText(column: string, m: MetricSpec, k: MetricKey)
    ensures RenderSlot(SelectSlots(column, m)[SelectPosition(k)])
         == (if k in m then m[k] else "null") + " AS " + Alias(k)
  {
  }

  /** Items separated by ", ". */
  function JoinComma(items: seq<string>): string
    decreases |items|
  {
    if |items| == 0 then ""
    else if |items| == 1 then items[0]
    else items[0] + ", " + JoinComma(items[1..])
  }

  const StatsSelectPrefix := "\n        SELECT "
  const StatsFromPrefix := "\n        FROM "
  const StatsSuffix := "\n        "

  /** The FROM clause names `schema.table` only: the database comes from the connection. */
  function FromClause(schema: string, table: string): string {
    StatsFromPrefix + schema + "." + table + StatsSuffix
  }

  /** `_build_column_stats_query`: one row holding the tag and the five metric slots. */
  function BuildColumnStatsQuery(schema: string, table: string, column: string, m: MetricSpec): (q: string)
    ensures StatsSelectPrefix + RenderSlot(Tag(column)) + ", " <= q
    ensures |FromClause(schema, table)| < |q|
    ensures q[|q| - |FromClause(schema, table)|..] == FromClause(schema, table)
  {
    var slots := SelectSlots(column, m);
    var items := seq(6, i requires 0 <= i < 6 => RenderSlot(slots[i]));
    assert JoinComma(items) == items[0] + ", " + JoinComma(items[1..]);
    StatsSelectPrefix + JoinComma(items) + FromClause(schema, table)
  }

  /**
    The whole text of a column's stats query: the tag, then the items for
    non_null_count, unique_count, mean, min and max in that order, joined by
    ", " between `SELECT` and the `FROM` clause.
   */
  lemma StatsQueryText(schema: string, table: string, column: string, m: MetricSpec)
    ensures BuildColumnStatsQuery(schema, table, column, m)
         == StatsSelectPrefix
            + JoinComma([RenderSlot(Tag(column)),
                         RenderSlot(MetricSlot(m, NonNullCount)),
                         RenderSlot(MetricSlot(m, UniqueCount)),
                         RenderSlot(MetricSlot(m, Mean)),
                         RenderSlot(MetricSlot(m, Min)),
                         RenderSlot(MetricSlot(m, Max))])
            + FromClause(schema, table)
  {
    var slots := SelectSlots(column, m);
    var items := seq(6, i requires 0 <= i < 6 => RenderSlot(slots[i]));
    assert items == [RenderSlot(Tag(column)),
                     RenderSlot(MetricSlot(m, NonNullCount)),
                     RenderSlot(MetricSlot(m, UniqueCount)),
                     RenderSlot(MetricSlot(m, Mean)),
                     RenderSlot(MetricSlot(m, Min)),
                     RenderSlot(MetricSlot(m, Max))];
  }

  /** All five statistics of a column, each a cell of the returned row. */
  datatype StatResult = StatResult(nonNullCount: Cell, mean: Cell, min: Cell, max: Cell, uniqueCount: Cell) {
    function Field(k: MetricKey): Cell {
      match k
      case NonNullCount => nonNullCount
      case UniqueCount => uniqueCount
      case Mean => mean
      case Min => min
      case Max => max
    }
  }

  /**
    Which row position each statistic is read from. `AsWritten` is the
    source's read-back (non_null_count, mean, min, max, unique_count at 1..5);
    `SelectOrder` reads each statistic from the position its SELECT put it at.
   */
  datatype ReadOrder = AsWritten | SelectOrder

  function ReadPosition(order: ReadOrder, k: MetricKey): (p: nat)
    ensures 1 <= p <= 5
  {
    match order
    case SelectOrder => SelectPosition(k)
    case AsWritten =>
      match k
      case NonNullCount => 1
      case Mean => 2
      case Min => 3
      case Max => 4
      case UniqueCount => 5
  }

  /** Each order reads the five statistics from five different positions. */
  lemma ReadPositionInjective(order: ReadOrder, k: MetricKey, k': MetricKey)
    ensures ReadPosition(order, k) == ReadPosition(order, k') <==> k == k'
  {
  }

  /**
    Reads the statistics from the first returned row: an IndexError when no
    row came back or the row is shorter than six cells.
   */
  function ReadStats(order: ReadOrder, rows: seq<Row>): (r: Result<StatResult>)
    ensures r.Err? <==> |rows| == 0 || |rows[0]| < 6
    ensures r.Err? ==> r.error == IndexOutOfRange
    ensures r.Ok? ==> forall k :: r.value.Field(k) == rows[0][ReadPosition(order, k)]
  {
    if |rows| == 0 || |rows[0]| < 6 then Err(IndexOutOfRange)
    else
      var row := rows[0];
      match order
      case AsWritten => Ok(StatResult(row[1], row[2], row[3], row[4], row[5]))
      case SelectOrder => Ok(StatResult(row[1], row[3], row[4], row[5], row[2]))
  }

  /** Only the non-null count is read from the slot that computes it; every other statistic is shifted. */
  lemma AsWrittenMisplacesAllButCount(k: MetricKey)
    ensures ReadPosition(AsWritten, k) == SelectPosition(k) <==> k == NonNullCount
  {
  }

  /** The value of one SELECT item in a warehouse that computes each expression with `eval`. */
  function EvalSlot(s: Slot, eval: string -> Cell): Cell {
    match s
    case Tag(c) => Some(c)
    case Computed(e, _) => eval(e)
    case NullSlot(_) => None
  }

  /** The row such a warehouse returns for a SELECT list: each item's value at its position. */
  function Evaluate(slots: seq<Slot>, eval: string -> Cell): Row {
    seq(|slots|, i requires 0 <= i < |slots| => EvalSlot(slots[i], eval))
  }

  /**
    Against a warehouse that answers the SELECT faithfully, each statistic
    is the value of whichever slot `order` reads it from.
   */
  lemma ReadBackOfAnswer(order: ReadOrder, column: string, m: MetricSpec, eval: string -> Cell)
    ensures var slots := SelectSlots(column, m);
      var r := ReadStats(order, [Evaluate(slots, eval)]);
      && r.Ok?
      && forall k :: r.value.Field(k) == EvalSlot(slots[ReadPosition(order, k)], eval)
  {
  }

  /** The slot at each read-back position of the source, for a column with metric set `m`. */
  lemma AsWrittenPositions(column: string, m: MetricSpec)
    ensures var slots := SelectSlots(column, m);
      && slots[ReadPosition(AsWritten, NonNullCount)] == MetricSlot(m, NonNullCount)
      && slots[ReadPosition(AsWritten, Mean)] == MetricSlot(m, UniqueCount)
      && slots[ReadPosition(AsWritten, Min)] == MetricSlot(m, Mean)
      && slots[ReadPosition(AsWritten, Max)] == MetricSlot(m, Min)
      && slots[ReadPosition(AsWritten, UniqueCount)] == MetricSlot(m, Max)
  {
    var slots := SelectSlots(column, m);
    assert slots[SelectPosition(UniqueCount)] == MetricSlot(m, UniqueCount);
    assert slots[SelectPosition(Mean)] == MetricSlot(m, Mean);
    assert slots[SelectPosition(Min)] == MetricSlot(m, Min);
    assert slots[SelectPosition(Max)] == MetricSlot(m, Max);
  }

  /**
    As written, a numeric column's `mean` is its null `unique_count` slot and
    its `unique_count` is its MAX; `min` and `max` hold AVG and MIN.
   */
  lemma AsWrittenNumericReadBack(column: string, dataType: string, eval: string -> Cell)
    requires dataType in NumericTypes
    ensures var r := ReadStats(AsWritten, [Evaluate(SelectSlots(column, SelectMetrics(column, dataType)), eval)]);
      && r.Ok?
      && r.value.nonNullCount == eval(Aggregate(NonNullCount, column))
      && r.value.mean == None
      && r.value.min == eval(Aggregate(Mean, column))
      && r.value.max == eval(Aggregate(Min, column))
      && r.value.uniqueCount == eval(Aggregate(Max, column))
  {
    var m := SelectMetrics(column, dataType);
    ReadBackOfAnswer(AsWritten, column, m, eval);
    AsWrittenPositions(column, m);
    var r := ReadStats(AsWritten, [Evaluate(SelectSlots(column, m), eval)]).value;
    assert r.mean == r.Field(Mean);
    assert r.min == r.Field(Min);
    assert r.max == r.Field(Max);
    assert r.uniqueCount == r.Field(UniqueCount);
    assert r.nonNullCount == r.Field(NonNullCount);
  }

  /**
    As written, a categorical column's `mean` is its distinct count and its
    `unique_count` is its null MAX slot.
   */
  lemma AsWrittenCategoricalReadBack(column: string, dataType: string, eval: string -> Cell)
    requires dataType !in NumericTypes
    ensures var r := ReadStats(AsWritten, [Evaluate(SelectSlots(column, SelectMetrics(column, dataType)), eval)]);
      && r.Ok?
      && r.value.nonNullCount == eval(Aggregate(NonNullCount, column))
      && r.value.mean == eval(Aggregate(UniqueCount, column))
      && r.value.min == None
      && r.value.max == None
      && r.value.uniqueCount == None
  {
    var m := SelectMetrics(column, dataType);
    ReadBackOfAnswer(AsWritten, column, m, eval);
    AsWrittenPositions(column, m);
    var r := ReadStats(AsWritten, [Evaluate(SelectSlots(column, m), eval)]).value;
    assert r.mean == r.Field(Mean);
    assert r.min == r.Field(Min);
    assert r.max == r.Field(Max);
    assert r.uniqueCount == r.Field(UniqueCount);
    assert r.nonNullCount == r.Field(NonNullCount);
  }

  /**
    Read in SELECT order, every statistic is the value of its own slot: the
    metric's computed value when the column has it, null otherwise.
   */
  lemma SelectOrderReadsOwnSlot(column: string, m: MetricSpec, eval: string -> Cell)
    ensures var r := ReadStats(SelectOrder, [Evaluate(SelectSlots(column, m), eval)]);
      && r.Ok?
      && forall k :: r.value.Field(k) == (if k in m then eval(m[k]) else None)
  {
    ReadBackOfAnswer(SelectOrder, column, m, eval);
    var slots := SelectSlots(column, m);
    forall k
      ensures EvalSlot(slots[SelectPosition(k)], eval) == (if k in m then eval(m[k]) else None)
    {
      assert slots[SelectPosition(k)] == MetricSlot(m, k);
    }
  }

  /** Read in SELECT order, a numeric column's statistics are its four aggregates and a null distinct count. */
  lemma SelectOrderNumericReadBack(column: string, dataType: string, eval: string -> Cell)
    requires dataType in NumericTypes
    ensures var r := ReadStats(SelectOrder, [Evaluate(SelectSlots(column, SelectMetrics(column, dataType)), eval)]);
      && r.Ok?
      && r.value.nonNullCount == eval(Aggregate(NonNullCount, column))
      && r.value.mean == eval(Aggregate(Mean, column))
      && r.value.min == eval(Aggregate(Min, column))
      && r.value.max == eval(Aggregate(Max, column))
      && r.value.uniqueCount == None
  {
    var m := SelectMetrics(column, dataType);
    SelectOrderReadsOwnSlot(column, m, eval);
    var r := ReadStats(SelectOrder, [Evaluate(SelectSlots(column, m), eval)]).value;
    assert r.mean == r.Field(Mean);
    assert r.min == r.Field(Min);
    assert r.max == r.Field(Max);
    assert r.uniqueCount == r.Field(UniqueCount);
    assert r.nonNullCount == r.Field(NonNullCount);
  }

  /** Read in SELECT order, a categorical column's statistics are its two counts, with null mean, min and max. */
  lemma SelectOrderCategoricalReadBack(column: string, dataType: string, eval: string -> Cell)
    requires dataType !in NumericTypes
    ensures var r := ReadStats(SelectOrder, [Evaluate(SelectSlots(column, SelectMetrics(column, dataType)), eval)]);
      && r.Ok?
      && r.value.nonNullCount == eval(Aggregate(NonNullCount, column))
      && r.value.mean == None
      && r.value.min == None
      && r.value.max == None
      && r.value.uniqueCount == eval(Aggregate(UniqueCount, column))
  {
    var m := SelectMetrics(column, dataType);
    SelectOrderReadsOwnSlot(column, m, eval);
    var r := ReadStats(SelectOrder, [Evaluate(SelectSlots(column, m), eval)]).value;
    assert r.mean == r.Field(Mean);
    assert r.min == r.Field(Min);
    assert r.max == r.Field(Max);
    assert r.uniqueCount == r.Field(UniqueCount);
    assert r.nonNullCount == r.Field(NonNullCount);
  }

  /**
    Read in SELECT order, exactly one branch is populated: with non-null
    aggregate values, a statistic is non-null iff the column's type selected
    it, and then it holds the value of that statistic's aggregate.
   */
  lemma SelectOrderBranchStats(column: string, dataType: string, eval: string -> Cell)
    requires forall k :: eval(Aggregate(k, column)).Some?
    ensures var m := SelectMetrics(column, dataType);
      var r := ReadStats(SelectOrder, [Evaluate(SelectSlots(column, m), eval)]);
      && r.Ok?
      && (forall k :: r.value.Field(k).Some? <==> k in m)
      && (forall k :: k in m ==> r.value.Field(k) == eval(Aggregate(k, column)))
  {
    var m := SelectMetrics(column, dataType);
    SelectOrderReadsOwnSlot(column, m, eval);
  }
}

=== FILE: ordered_dict.dfy ===
/**
  Python's `dict` as the service uses it: keys kept in first-insertion order,
  and assigning to a key already present replaces its value in place.
 */
module OrderedDict {
  import opened Common

  /** Entries in iteration order. */
  type Dict<K, V> = seq<(K, V)>

  /** The keys in iteration order. */
  function KeySeq<K, V>(d: Dict<K, V>): seq<K> {
    seq(|d|, i requires 0 <= i < |d| => d[i].0)
  }

  function Keys<K, V>(d: Dict<K, V>): set<K> {
    set i | 0 <= i < |d| :: d[i].0
  }

  /** No key appears twice: the shape of every dict. */
  predicate DistinctKeys<K(==), V>(d: Dict<K, V>) {
    forall i, j :: 0 <= i < j < |d| ==> d[i].0 != d[j].0
  }

  /** `d[k]` if present. */
  function Get<K(==), V>(d: Dict<K, V>, k: K): (r: Option<V>)
    ensures r.Some? <==> k in Keys(d)
    ensures r.Some? ==> exists i :: 0 <= i < |d| && d[i] == (k, r.value)
  {
    if |d| == 0 then None
    else if d[0].0 == k then Some(d[0].1)
    else
      var r := Get(d[1..], k);
      KeysCons(d);
      GetTail(d, k, r);
      r
  }

  /** `d[k] = v`: replaces the value in place when `k` is present, appends otherwise. */
  function Put<K(==), V>(d: Dict<K, V>, k: K, v: V): (r: Dict<K, V>)
    ensures Keys(r) == Keys(d) + {k}
    ensures k in Keys(d) ==> KeySeq(r) == KeySeq(d)
    ensures k !in Keys(d) ==> r == d + [(k, v)]
  {
    if |d| == 0 then
      var r := [(k, v)];
      KeysCons(r);
      r
    else if d[0].0 == k then
      var r := [(k, v)] + d[1..];
      KeysCons(d);
      KeysCons(r);
      r
    else
      var rest := Put(d[1..], k, v);
      var r := [d[0]] + rest;
      KeysCons(d);
      KeysCons(r);
      assert r[1..] == rest;
      assert KeySeq(r) == [d[0].0] + KeySeq(rest);
      assert KeySeq(d) == [d[0].0] + KeySeq(d[1..]);
      r
  }

  /** After `d[k] = v`, `k` maps to `v` and every other key keeps its value. */
  lemma {:induction false} PutGet<K, V>(d: Dict<K, V>, k: K, v: V, k': K)
    ensures Get(Put(d, k, v), k) == Some(v)
    ensures k' != k ==> Get(Put(d, k, v), k') == Get(d, k')
  {
    if |d| > 0 && d[0].0 != k {
      PutGet(d[1..], k, v, k');
      assert Put(d, k, v)[1..] == Put(d[1..], k, v);
    }
  }

  /** Assignment keeps every key distinct. */
  lemma {:induction false} PutDistinct<K, V>(d: Dict<K, V>, k: K, v: V)
    requires DistinctKeys(d)
    ensures DistinctKeys(Put(d, k, v))
  {
    if |d| > 0 && d[0].0 != k {
      PutDistinct(d[1..], k, v);
      var r := Put(d, k, v);
      assert r[1..] == Put(d[1..], k, v);
      KeysCons(d);
      KeysCons(r);
      forall j | 0 < j < |r|
        ensures r[0].0 != r[j].0
      {
        assert r[j].0 in Keys(r[1..]) by { assert r[1..][j - 1] == r[j]; }
      }
    } else if |d| > 0 {
      var r := Put(d, k, v);
      assert KeySeq(r) == KeySeq(d);
      forall i, j | 0 <= i < j < |r|
        ensures r[i].0 != r[j].0
      {
        assert r[i].0 == KeySeq(r)[i] == KeySeq(d)[i];
        assert r[j].0 == KeySeq(r)[j] == KeySeq(d)[j];
      }
    }
  }

  /** A hit in the tail of `d` is a hit in `d`, one index further on. */
  lemma GetTail<K, V>(d: Dict<K, V>, k: K, r: Option<V>)
    requires |d| > 0
    requires r.Some? ==> exists i :: 0 <= i < |d[1..]| && d[1..][i] == (k, r.value)
    ensures r.Some? ==> exists i :: 0 <= i < |d| && d[i] == (k, r.value)
  {
    if r.Some? {
      var i :| 0 <= i < |d[1..]| && d[1..][i] == (k, r.value);
      assert d[i + 1] == (k, r.value);
    }
  }

  lemma KeysCons<K, V>(d: Dict<K, V>)
    requires |d| > 0
    ensures Keys(d) == {d[0].0} + Keys(d[1..])
  {
    forall x | x in Keys(d)
      ensures x in {d[0].0} + Keys(d[1..])
    {
      var i :| 0 <= i < |d| && d[i].0 == x;
      if i > 0 {
        assert d[1..][i - 1].0 == x;
      }
    }
    forall x | x in Keys(d[1..])
      ensures x in Keys(d)
    {
      var i :| 0 <= i < |d[1..]| && d[1..][i].0 == x;
      assert d[i + 1].0 == x;
    }
  }

  /**
    Applies `f` to each entry in order, stopping at the first failure: the
    shape of a loop that fills a new dict from an old one. A failure is the
    error of the first failing entry, whatever the later entries would give.
   */
  function MapValues<K, A, B>(f: (K, A) -> Result<B>, d: Dict<K, A>): (r: Result<Dict<K, B>>)
    ensures r.Ok? <==> forall j :: 0 <= j < |d| ==> f(d[j].0, d[j].1).Ok?
    ensures r.Err? ==> exists j :: 0 <= j < |d| && f(d[j].0, d[j].1) == Err(r.error)
                                && forall i :: 0 <= i < j ==> f(d[i].0, d[i].1).Ok?
    ensures r.Ok? ==> KeySeq(r.value) == KeySeq(d)
    ensures r.Ok? ==> forall j :: 0 <= j < |d| ==> r.value[j] == (d[j].0, f(d[j].0, d[j].1).value)
  {
    if |d| == 0 then Ok([])
    else
      var head := f(d[0].0, d[0].1);
      var rest := MapValues(f, d[1..]);
      if head.Err? then Err(head.error)
      else if rest.Err? then
        assert exists j :: 0 <= j < |d| && f(d[j].0, d[j].1) == Err(rest.error)
                           && forall i :: 0 <= i < j ==> f(d[i].0, d[i].1).Ok? by {
          var j :| 0 <= j < |d[1..]| && f(d[1..][j].0, d[1..][j].1) == Err(rest.error)
                   && forall i :: 0 <= i < j ==> f(d[1..][i].0, d[1..][i].1).Ok?;
          assert d[1..][j] == d[j + 1];
          forall i | 0 <= i < j + 1 ensures f(d[i].0, d[i].1).Ok? {
            if i > 0 { assert d[i] == d[1..][i - 1]; }
          }
        }
        Err(rest.error)
      else
        var r := [(d[0].0, head.value)] + rest.value;
        assert KeySeq(r) == [d[0].0] + KeySeq(rest.value);
        assert KeySeq(d) == [d[0].0] + KeySeq(d[1..]);
        Ok(r)
  }
}

=== FILE: queries.dfy ===
/**
  The SQL text templates. Each interpolates its identifiers into fixed text
  with no quoting and no validation, so an identifier is copied verbatim and
  a `.` inside one is indistinguishable from the separator the template adds.
 */
module Queries {
  import opened Common
  import Helper

  const SchemasPrefix := "SHOW SCHEMAS IN DATABASE "
  const TablesPrefix := "SHOW TABLES IN SCHEMA "
  const DescribePrefix := "\n        describe table "
  const DescribeSuffix := "\n        "

  /** `x` occurs in `s` starting at index `at`. */
  predicate OccursAt(x: string, s: string, at: nat) {
    at + |x| <= |s| && s[at..at + |x|] == x
  }

  /** `show_schemas_query`: lists the schemas of `database`. */
  function ShowSchemasQuery(database: string): (q: string)
    ensures SchemasPrefix <= q
    ensures |q| == |SchemasPrefix| + |database|
    ensures OccursAt(database, q, |SchemasPrefix|)
  {
    SchemasPrefix + database
  }

  /**
    `show_tables_query(schema_name, database)`: the database comes first in
    the text although it is the second parameter.
   */
  function ShowTablesQuery(schema: string, database: string): (q: string)
    ensures TablesPrefix <= q
    ensures |q| == |TablesPrefix| + |database| + 1 + |schema|
    ensures OccursAt(database, q, |TablesPrefix|)
    ensures q[|TablesPrefix| + |database|] == '.'
    ensures OccursAt(schema, q, |TablesPrefix| + |database| + 1)
  {
    TablesPrefix + database + "." + schema
  }

  /** `show_table_info(table_name, schema_name, database)`: `describe table database.schema.table`. */
  function ShowTableInfo(table: string, schema: string, database: string): (q: string)
    ensures DescribePrefix <= q
    ensures |q| == |DescribePrefix| + |database| + 1 + |schema| + 1 + |table| + |DescribeSuffix|
    ensures OccursAt(database, q, |DescribePrefix|)
    ensures q[|DescribePrefix| + |database|] == '.'
    ensures OccursAt(schema, q, |DescribePrefix| + |database| + 1)
    ensures q[|DescribePrefix| + |database| + 1 + |schema|] == '.'
    ensures OccursAt(table, q, |DescribePrefix| + |database| + 1 + |schema| + 1)
    ensures q[|q| - |DescribeSuffix|..] == DescribeSuffix
  {
    DescribePrefix + database + "." + schema + "." + table + DescribeSuffix
  }

  /** Splits `s` at its first `.`, if it has one. */
  function SplitAtDot(s: string): (r: Option<(string, string)>)
    ensures r.None? <==> '.' !in s
    ensures r.Some? ==> '.' !in r.value.0 && s == r.value.0 + "." + r.value.1
  {
    var i := Helper.Find(s, '.');
    if i == -1 then None
    else
      assert s == s[..i] + "." + s[i + 1..];
      Some((s[..i], s[i + 1..]))
  }

  /** Recovers the database from a list-schemas query. */
  function ParseSchemasQuery(q: string): Option<string> {
    if SchemasPrefix <= q then Some(q[|SchemasPrefix|..]) else None
  }

  /** Recovers `(database, schema)` from a list-tables query, splitting at the first `.`. */
  function ParseTablesQuery(q: string): Option<(string, string)> {
    if TablesPrefix <= q then SplitAtDot(q[|TablesPrefix|..]) else None
  }

  /** Recovers `(database, schema, table)` from a describe query, splitting at the first two dots. */
  function ParseDescribeQuery(q: string): Option<(string, string, string)> {
    if |DescribePrefix| + |DescribeSuffix| <= |q| && DescribePrefix <= q
       && q[|q| - |DescribeSuffix|..] == DescribeSuffix
    then ParseQualifiedName(q[|DescribePrefix|..|q| - |DescribeSuffix|])
    else None
  }

  /** Splits `database.schema.table` at its first two dots. */
  function ParseQualifiedName(name: string): Option<(string, string, string)> {
    var first := SplitAtDot(name);
    if first.None? then None
    else
      var second := SplitAtDot(first.value.1);
      if second.None? then None
      else Some((first.value.0, second.value.0, second.value.1))
  }

  /** The list-schemas query determines its database, and every such query is one. */
  lemma SchemasQueryRoundTrip(database: string, q: string)
    ensures ParseSchemasQuery(ShowSchemasQuery(database)) == Some(database)
    ensures ParseSchemasQuery(q) == Some(database) ==> ShowSchemasQuery(database) == q
  {
    assert ShowSchemasQuery(database)[|SchemasPrefix|..] == database;
    if ParseSchemasQuery(q) == Some(database) {
      assert q == q[..|SchemasPrefix|] + q[|SchemasPrefix|..];
    }
  }

  /** A list-tables query determines its identifiers exactly when the database holds no `.`. */
  lemma TablesQueryRoundTrip(schema: string, database: string)
    requires '.' !in database
    ensures ParseTablesQuery(ShowTablesQuery(schema, database)) == Some((database, schema))
  {
    var q := ShowTablesQuery(schema, database);
    assert q[|TablesPrefix|..] == database + "." + schema;
    DotFreeSplit(database, schema);
  }

  /** Every query the list-tables parser accepts is produced by the template from what it returns. */
  lemma TablesQueryParseSound(q: string, schema: string, database: string)
    requires ParseTablesQuery(q) == Some((database, schema))
    ensures ShowTablesQuery(schema, database) == q
    ensures '.' !in database
  {
    assert q == q[..|TablesPrefix|] + q[|TablesPrefix|..];
  }

  /**
    No escaping: a `.` inside the database name produces exactly the text of
    another (schema, database) pair, so the query does not determine them.
   */
  lemma TablesQueryDotCollision(a: string, b: string, c: string)
    ensures ShowTablesQuery(c, a + "." + b) == ShowTablesQuery(b + "." + c, a)
  {
  }

  /** A describe query determines its identifiers when database and schema hold no `.`. */
  lemma DescribeQueryRoundTrip(table: string, schema: string, database: string)
    requires '.' !in database && '.' !in schema
    ensures ParseDescribeQuery(ShowTableInfo(table, schema, database)) == Some((database, schema, table))
  {
    var q := ShowTableInfo(table, schema, database);
    var name := database + "." + schema + "." + table;
    assert q == DescribePrefix + name + DescribeSuffix;
    assert q[|DescribePrefix|..|q| - |DescribeSuffix|] == name;
    assert name == database + "." + (schema + "." + table);
    DotFreeSplit(database, schema + "." + table);
    DotFreeSplit(schema, table);
  }

  /** Splitting `x + "." + y` at the first dot gives back `x` when `x` holds no `.`. */
  lemma DotFreeSplit(x: string, y: string)
    requires '.' !in x
    ensures SplitAtDot(x + "." + y) == Some((x, y))
  {
    var s := x + "." + y;
    assert s[|x|] == '.';
    var (d, rest) := SplitAtDot(s).value;
    assert |d| == |x|;
    assert d == s[..|x|] == x;
    assert rest == s[|x| + 1..] == y;
  }

  /** Every query the describe parser accepts is produced by the template from what it returns. */
  lemma DescribeQueryParseSound(q: string, table: string, schema: string, database: string)
    requires ParseDescribeQuery(q) == Some((database, schema, table))
    ensures ShowTableInfo(table, schema, database) == q
    ensures '.' !in database && '.' !in schema
  {
    var name := q[|DescribePrefix|..|q| - |DescribeSuffix|];
    Unframe(q, DescribePrefix, DescribeSuffix);
    assert ParseQualifiedName(name) == Some((database, schema, table));
    QualifiedNameParseSound(name, table, schema, database);
    DescribeFrame(table, schema, database);
  }

  /** The describe query is the qualified name between the fixed prefix and suffix. */
  lemma DescribeFrame(table: string, schema: string, database: string)
    ensures ShowTableInfo(table, schema, database)
         == DescribePrefix + (database + "." + (schema + "." + table)) + DescribeSuffix
  {
  }

  /** A text that starts with `p` and ends with `s` is `p`, its middle, then `s`. */
  lemma Unframe(q: string, p: string, s: string)
    requires |p| + |s| <= |q| && p <= q && q[|q| - |s|..] == s
    ensures q == p + q[|p|..|q| - |s|] + s
  {
    assert q == q[..|p|] + q[|p|..|q| - |s|] + q[|q| - |s|..];
  }

  /** What the qualified-name splitter returns re-joins to its input. */
  lemma QualifiedNameParseSound(name: string, table: string, schema: string, database: string)
    requires ParseQualifiedName(name) == Some((database, schema, table))
    ensures name == database + "." + (schema + "." + table)
    ensures '.' !in database && '.' !in schema
  {
  }
}

=== FILE: service.dfy ===
/**
  `SnowflakeService`: the three operations that run the templates against the
  warehouse and reshape the returned rows. The warehouse is a parameter, so
  every property below holds whatever the warehouse answers, except the two
  read-back lemmas at the end, which assume it answers the stats SELECT
  faithfully.
 */
module Service {
  import opened Common
  import opened Queries
  import opened Metrics
  import opened OrderedDict

  /**
    The warehouse as the service sees it: runs `query` on a connection to
    `database` and yields every row, or the exception that connecting,
    executing or fetching raised.
   */
  type Warehouse = (string, string) -> Result<seq<Row>>

  /** `_execute_query`: the rows, or the warehouse's error wrapped as a query-execution failure. */
  function ExecuteQuery(wh: Warehouse, query: string, database: string): (r: Result<seq<Row>>)
    ensures r.Ok? <==> wh(query, database).Ok?
    ensures r.Ok? ==> r.value == wh(query, database).value
    ensures r.Err? ==> r.error == Wrapped(ExecutingQuery, wh(query, database).error)
  {
    Within(ExecutingQuery, wh(query, database))
  }

  // ---------------------------------------------------------------- schemas

  /** Every row has a cell at index `i`. */
  predicate AllHave(rows: seq<Row>, i: nat) {
    forall j :: 0 <= j < |rows| ==> i < |rows[j]|
  }

  /**
    The schema-name column of a `SHOW SCHEMAS` result: `row[1]` of each row
    whose `row[1]` is not None, in row order; an IndexError on a shorter row.
   */
  function SchemaNames(rows: seq<Row>): (r: Result<seq<string>>)
    ensures r.Ok? <==> AllHave(rows, 1)
    ensures r.Err? ==> r.error == IndexOutOfRange
    ensures r.Ok? ==> |r.value| <= |rows|
  {
    if |rows| == 0 then Ok([])
    else if |rows[0]| < 2 then Err(IndexOutOfRange)
    else
      var rest := SchemaNames(rows[1..]);
      assert AllHave(rows, 1) <==> AllHave(rows[1..], 1) by {
        if AllHave(rows[1..], 1) {
          forall j | 0 <= j < |rows| ensures 1 < |rows[j]| {
            if j > 0 { assert rows[j] == rows[1..][j - 1]; }
          }
        }
      }
      if rest.Err? then rest
      else
        Ok(if rows[0][1].Some? then [rows[0][1].value] + rest.value else rest.value)
  }

  /** The names a single row contributes: its `row[1]` unless that is None. */
  function RowName(row: Row): seq<string>
    requires |row| >= 2
  {
    if row[1].Some? then [row[1].value] else []
  }

  /** The filter is the first row's contribution followed by the rest's. */
  lemma SchemaNamesCons(rows: seq<Row>)
    requires |rows| > 0 && AllHave(rows, 1)
    ensures SchemaNames(rows).Ok? && SchemaNames(rows[1..]).Ok?
    ensures SchemaNames(rows).value == RowName(rows[0]) + SchemaNames(rows[1..]).value
  {
    assert AllHave(rows[1..], 1) by {
      forall j | 0 <= j < |rows[1..]| ensures 1 < |rows[1..][j]| {
        assert rows[1..][j] == rows[j + 1];
      }
    }
  }

  /** Filtering distributes over concatenation: the output keeps the input's row order. */
  lemma {:induction false} SchemaNamesAppend(a: seq<Row>, b: seq<Row>)
    requires AllHave(a, 1) && AllHave(b, 1)
    ensures SchemaNames(a + b).Ok?
    ensures SchemaNames(a + b).value == SchemaNames(a).value + SchemaNames(b).value
  {
    var ab := a + b;
    assert AllHave(ab, 1) by {
      forall j | 0 <= j < |ab| ensures 1 < |ab[j]| {
        if j >= |a| { assert ab[j] == b[j - |a|]; }
      }
    }
    if |a| == 0 {
      assert ab == b;
    } else {
      SchemaNamesCons(a);
      SchemaNamesCons(ab);
      assert ab[0] == a[0];
      assert ab[1..] == a[1..] + b;
      SchemaNamesAppend(a[1..], b);
      var x := SchemaNames(a[1..]).value;
      var y := SchemaNames(b).value;
      assert SchemaNames(ab).value == RowName(a[0]) + (x + y);
      assert SchemaNames(a).value == RowName(a[0]) + x;
    }
  }

  /** A name is returned iff some row carries it at index 1. */
  lemma {:induction false} SchemaNamesMembers(rows: seq<Row>, s: string)
    requires AllHave(rows, 1)
    ensures SchemaNames(rows).Ok?
    ensures s in SchemaNames(rows).value <==> exists j :: 0 <= j < |rows| && rows[j][1] == Some(s)
  {
    if |rows| > 0 {
      SchemaNamesCons(rows);
      SchemaNamesMembers(rows[1..], s);
      if exists j :: 0 <= j < |rows| && rows[j][1] == Some(s) {
        var j :| 0 <= j < |rows| && rows[j][1] == Some(s);
        if j > 0 { assert rows[1..][j - 1] == rows[j]; }
      }
      if exists j :: 0 <= j < |rows[1..]| && rows[1..][j][1] == Some(s) {
        var j :| 0 <= j < |rows[1..]| && rows[1..][j][1] == Some(s);
        assert rows[j + 1] == rows[1..][j];
      }
    }
  }

  /** `get_schemas`: the non-None schema names, NotFound on an empty result, every failure wrapped. */
  function GetSchemas(wh: Warehouse, database: string): (r: Result<seq<string>>)
    ensures r.Err? ==> r.error.Wrapped? && r.error.context == FetchingSchemas
    ensures var q := wh(ShowSchemasQuery(database), database);
      && (q.Err? ==> r == Err(Wrapped(FetchingSchemas, Wrapped(ExecutingQuery, q.error))))
      && (q.Ok? && |q.value| == 0 ==> r == Err(Wrapped(FetchingSchemas, NotFound)))
      && (q.Ok? && |q.value| > 0 ==> r == Within(FetchingSchemas, SchemaNames(q.value)))
  {
    Within(FetchingSchemas, FetchSchemas(wh, database))
  }

  /**
    The body of `get_schemas` inside its try block: the filtered names of a
    non-empty answer, NotFound on an empty one, a failed query's wrapped error.
   */
  function FetchSchemas(wh: Warehouse, database: string): (r: Result<seq<string>>)
    ensures var q := wh(ShowSchemasQuery(database), database);
      && (q.Err? ==> r == Err(Wrapped(ExecutingQuery, q.error)))
      && (q.Ok? && |q.value| == 0 ==> r == Err(NotFound))
      && (q.Ok? && |q.value| > 0 ==> r == SchemaNames(q.value))
  {
    var rows :- ExecuteQuery(wh, ShowSchemasQuery(database), database);
    if |rows| == 0 then Err(NotFound) else SchemaNames(rows)
  }

  /**
    The emptiness check looks at the rows, not the names: a non-empty result
    whose name cells are all None succeeds with no schemas.
   */
  lemma GetSchemasAllNoneIsEmptySuccess(wh: Warehouse, database: string)
    requires wh(ShowSchemasQuery(database), database).Ok?
    requires var rows := wh(ShowSchemasQuery(database), database).value;
      |rows| > 0 && forall j :: 0 <= j < |rows| ==> |rows[j]| >= 2 && rows[j][1].None?
    ensures GetSchemas(wh, database) == Ok([])
  {
    var rows := wh(ShowSchemasQuery(database), database).value;
    AllNoneNames(rows);
  }

  lemma {:induction false} AllNoneNames(rows: seq<Row>)
    requires forall j :: 0 <= j < |rows| ==> |rows[j]| >= 2 && rows[j][1].None?
    ensures SchemaNames(rows) == Ok([])
  {
    if |rows| > 0 {
      AllNoneNames(rows[1..]);
    }
  }

  // --------------------------------------------------------------- metadata

  /** One column of a table as the metadata endpoint reports it. */
  datatype ColumnInfo = ColumnInfo(columnName: Cell, dataType: Cell, description: string)

  /** `row[9] or "No description"`: the comment when it is truthy, the default otherwise. */
  function Description(comment: Cell): (d: string)
    ensures Truthy(comment) ==> d == comment.value
    ensures !Truthy(comment) ==> d == "No description"
    ensures d != ""
  {
    if comment.Some? && comment.value != "" then comment.value else "No description"
  }

  /**
    The describe-table rows as column records, one per row in order, read
    from positions 0, 1 and 9; an IndexError when some row is shorter than ten.
   */
  function DescribeColumns(rows: seq<Row>): (r: Result<seq<ColumnInfo>>)
    ensures r.Ok? <==> AllHave(rows, 9)
    ensures r.Err? ==> r.error == IndexOutOfRange
    ensures r.Ok? ==> |r.value| == |rows|
    ensures r.Ok? ==> forall j :: 0 <= j < |rows| ==>
      r.value[j] == ColumnInfo(rows[j][0], rows[j][1], Description(rows[j][9]))
  {
    if |rows| == 0 then Ok([])
    else if |rows[0]| < 10 then Err(IndexOutOfRange)
    else
      var rest := DescribeColumns(rows[1..]);
      assert AllHave(rows, 9) <==> AllHave(rows[1..], 9) by {
        if AllHave(rows[1..], 9) {
          forall j | 0 <= j < |rows| ensures 9 < |rows[j]| {
            if j > 0 { assert rows[j] == rows[1..][j - 1]; }
          }
        }
      }
      if rest.Err? then rest
      else Ok([ColumnInfo(rows[0][0], rows[0][1], Description(rows[0][9]))] + rest.value)
  }

  /** A describe row with the given name and type and no comment, padded to the ten cells read. */
  function UncommentedColumn(name: string, rawType: string): Row {
    [Some(name), Some(rawType), None, None, None, None, None, None, None, None]
  }

  /** Two uncommented columns are reported in order with the default description. */
  lemma DescribeColumnsExample()
    ensures DescribeColumns([UncommentedColumn("ID", "NUMBER(38,0)"), UncommentedColumn("NAME", "VARCHAR(50)")])
         == Ok([ColumnInfo(Some("ID"), Some("NUMBER(38,0)"), "No description"),
                ColumnInfo(Some("NAME"), Some("VARCHAR(50)"), "No description")])
  {
    var rows := [UncommentedColumn("ID", "NUMBER(38,0)"), UncommentedColumn("NAME", "VARCHAR(50)")];
    assert AllHave(rows, 9);
    var r := DescribeColumns(rows).value;
    assert |r| == 2;
    assert r[0] == ColumnInfo(Some("ID"), Some("NUMBER(38,0)"), Description(None));
    assert r[1] == ColumnInfo(Some("NAME"), Some("VARCHAR(50)"), Description(None));
    assert r == [r[0], r[1]];
  }

  /** `get_table_metadata`: one record per describe row, NotFound on no rows, every failure wrapped. */
  function GetTableMetadata(wh: Warehouse, table: string, schema: string, database: string): (r: Result<seq<ColumnInfo>>)
    ensures r.Err? ==> r.error.Wrapped? && r.error.context == FetchingMetadata(table)
    ensures var q := wh(ShowTableInfo(table, schema, database), database);
      && (q.Err? ==> r == Err(Wrapped(FetchingMetadata(table), Wrapped(ExecutingQuery, q.error))))
      && (q.Ok? && |q.value| == 0 ==> r == Err(Wrapped(FetchingMetadata(table), NotFound)))
      && (q.Ok? && |q.value| > 0 ==> r == Within(FetchingMetadata(table), DescribeColumns(q.value)))
  {
    Within(FetchingMetadata(table), FetchMetadata(wh, table, schema, database))
  }

  /**
    The body of `get_table_metadata` inside its try block: the column records
    of a non-empty describe answer, NotFound on an empty one.
   */
  function FetchMetadata(wh: Warehouse, table: string, schema: string, database: string): (r: Result<seq<ColumnInfo>>)
    ensures var q := wh(ShowTableInfo(table, schema, database), database);
      && (q.Err? ==> r == Err(Wrapped(ExecutingQuery, q.error)))
      && (q.Ok? && |q.value| == 0 ==> r == Err(NotFound))
      && (q.Ok? && |q.value| > 0 ==> r == DescribeColumns(q.value))
  {
    var rows :- ExecuteQuery(wh, ShowTableInfo(table, schema, database), database);
    if |rows| == 0 then Err(NotFound) else DescribeColumns(rows)
  }

  // ---------------------------------------------------------------- metrics

  /**
    The first loop's step for one describe row: the column's name cell and
    metric set; an IndexError on a row shorter than two, an AttributeError
    when the type cell is None.
   */
  function ColumnSpec(row: Row): (r: Result<(Cell, MetricSpec)>)
    ensures r.Ok? <==> |row| >= 2 && row[1].Some?
    ensures |row| < 2 ==> r == Err(IndexOutOfRange)
    ensures |row| >= 2 && row[1].None? ==> r == Err(NoneHasNoFind)
    ensures r.Ok? ==> r.value == (row[0], MetricsFor(row[0], row[1].value))
  {
    if |row| < 2 then Err(IndexOutOfRange)
    else if row[1].None? then Err(NoneHasNoFind)
    else Ok((row[0], MetricsFor(row[0], row[1].value)))
  }

  /**
    The first loop: each row's metric set assigned under its name, in row
    order; the first row that yields no spec aborts the loop with its error.
   */
  function ColumnSpecs(rows: seq<Row>): (r: Result<Dict<Cell, MetricSpec>>)
    ensures r.Ok? <==> AllYieldSpecs(rows)
    ensures r.Err? ==> FirstFailure(rows, r.error)
  {
    if |rows| == 0 then Ok([])
    else
      var init := ColumnSpecs(rows[..|rows| - 1]);
      var e := ColumnSpec(rows[|rows| - 1]);
      SpecsSnoc(rows, init, e);
      if init.Err? then Err(init.error)
      else if e.Err? then Err(e.error)
      else Ok(Put(init.value, e.value.0, e.value.1))
  }

  /**
    How the outcome of the loop over all rows but the last, and the last
    row's step, decide the outcome over all rows.
   */
  lemma SpecsSnoc(rows: seq<Row>, init: Result<Dict<Cell, MetricSpec>>, e: Result<(Cell, MetricSpec)>)
    requires |rows| > 0
    requires init.Ok? <==> AllYieldSpecs(rows[..|rows| - 1])
    requires init.Err? ==> FirstFailure(rows[..|rows| - 1], init.error)
    requires e == ColumnSpec(rows[|rows| - 1])
    ensures init.Ok? && e.Ok? <==> AllYieldSpecs(rows)
    ensures init.Err? ==> FirstFailure(rows, init.error)
    ensures init.Ok? && e.Err? ==> FirstFailure(rows, e.error)
  {
    var n := |rows| - 1;
    InitRows(rows);
    if init.Err? {
      FailureInInit(rows, init.error);
    } else if e.Err? {
      assert AllYieldSpecs(rows[..n]);
      assert FirstFailure(rows, e.error) by {
        assert forall i :: 0 <= i < n ==> ColumnSpec(rows[i]).Ok? by {
          forall i | 0 <= i < n ensures ColumnSpec(rows[i]).Ok? {
            assert rows[..n][i] == rows[i];
          }
        }
      }
    } else {
      assert AllYieldSpecs(rows[..n]);
    }
  }

  /** Every describe row yields a spec. */
  predicate AllYieldSpecs(rows: seq<Row>) {
    forall j :: 0 <= j < |rows| ==> ColumnSpec(rows[j]).Ok?
  }

  /** Row `j` is the first row that yields no spec, and it fails with `err`. */
  predicate FirstFailure(rows: seq<Row>, err: Error) {
    exists j :: 0 <= j < |rows| && ColumnSpec(rows[j]) == Err(err)
              && forall i :: 0 <= i < j ==> ColumnSpec(rows[i]).Ok?
  }

  /** The first failing row of all rows but the last is the first failing row of the whole. */
  lemma FailureInInit(rows: seq<Row>, err: Error)
    requires |rows| > 0 && FirstFailure(rows[..|rows| - 1], err)
    ensures FirstFailure(rows, err)
  {
    var init := rows[..|rows| - 1];
    var j :| 0 <= j < |init| && ColumnSpec(init[j]) == Err(err)
             && forall i :: 0 <= i < j ==> ColumnSpec(init[i]).Ok?;
    InitRows(rows);
    assert ColumnSpec(rows[j]) == Err(err);
  }

  /** A successful first loop is the loop over all rows but the last, then the last row's assignment. */
  lemma ColumnSpecsSnoc(rows: seq<Row>)
    requires |rows| > 0 && ColumnSpecs(rows).Ok?
    ensures ColumnSpecs(rows[..|rows| - 1]).Ok? && ColumnSpec(rows[|rows| - 1]).Ok?
    ensures var e := ColumnSpec(rows[|rows| - 1]).value;
      ColumnSpecs(rows).value == Put(ColumnSpecs(rows[..|rows| - 1]).value, e.0, e.1)
  {
  }

  /** Row `i` is the last row carrying its name. */
  predicate LastWithName(rows: seq<Row>, i: nat)
    requires i < |rows| && |rows[i]| > 0
  {
    forall j :: i < j < |rows| && |rows[j]| > 0 ==> rows[j][0] != rows[i][0]
  }

  /** The names of all rows. */
  function Names(rows: seq<Row>): set<Cell>
    requires AllHave(rows, 0)
  {
    set j | 0 <= j < |rows| :: rows[j][0]
  }

  /** Every row before the last is a row of the prefix the first loop has already seen. */
  lemma InitRows(rows: seq<Row>)
    requires |rows| > 0
    ensures forall j :: 0 <= j < |rows| - 1 ==> rows[..|rows| - 1][j] == rows[j]
  {
  }

  /** The first loop's dict has one key per distinct column name. */
  lemma {:induction false} ColumnSpecsKeys(rows: seq<Row>)
    requires ColumnSpecs(rows).Ok?
    ensures AllHave(rows, 1)
    ensures DistinctKeys(ColumnSpecs(rows).value)
    ensures Keys(ColumnSpecs(rows).value) == Names(rows)
  {
    if |rows| > 0 {
      var n := |rows| - 1;
      var init := rows[..n];
      ColumnSpecsKeys(init);
      InitRows(rows);
      var d := ColumnSpecs(init).value;
      var e := ColumnSpec(rows[n]).value;
      PutDistinct(d, e.0, e.1);
      NamesSnoc(rows);
    }
  }

  /** The names of all rows are those of all but the last, plus the last's. */
  lemma NamesSnoc(rows: seq<Row>)
    requires |rows| > 0 && AllHave(rows, 0)
    ensures AllHave(rows[..|rows| - 1], 0)
    ensures Names(rows) == Names(rows[..|rows| - 1]) + {rows[|rows| - 1][0]}
  {
    var init := rows[..|rows| - 1];
    forall x | x in Names(rows) ensures x in Names(init) + {rows[|rows| - 1][0]} {
      var j :| 0 <= j < |rows| && rows[j][0] == x;
      if j < |init| { assert init[j] == rows[j]; }
    }
    forall x | x in Names(init) ensures x in Names(rows) {
      var j :| 0 <= j < |init| && init[j][0] == x;
      assert rows[j] == init[j];
    }
  }

  /** A later row with the same name overwrites an earlier one: each name holds its last row's spec. */
  lemma {:induction false} ColumnSpecsLastWins(rows: seq<Row>, i: nat)
    requires ColumnSpecs(rows).Ok?
    requires i < |rows| && |rows[i]| >= 2 && LastWithName(rows, i)
    ensures rows[i][1].Some?
    ensures Get(ColumnSpecs(rows).value, rows[i][0]) == Some(MetricsFor(rows[i][0], rows[i][1].value))
    decreases |rows|, 1
  {
    SpecAt(rows, i);
    if i < |rows| - 1 {
      EarlierRowSurvives(rows, i);
    } else {
      FinalRowWins(rows);
    }
  }

  /** The final row's assignment is what its name looks up. */
  lemma FinalRowWins(rows: seq<Row>)
    requires |rows| > 0 && ColumnSpecs(rows).Ok?
    ensures ColumnSpec(rows[|rows| - 1]).Ok?
    ensures var e := ColumnSpec(rows[|rows| - 1]).value;
      Get(ColumnSpecs(rows).value, e.0) == Some(e.1)
  {
    var n := |rows| - 1;
    ColumnSpecsSnoc(rows);
    var d := ColumnSpecs(rows[..n]).value;
    var e := ColumnSpec(rows[n]).value;
    var r := ColumnSpecs(rows).value;
    assert r == Put(d, e.0, e.1);
    PutGet(d, e.0, e.1, e.0);
    assert Get(r, e.0) == Some(e.1);
  }

  /** An earlier row whose name does not recur keeps its spec through the final row's assignment. */
  lemma {:induction false} EarlierRowSurvives(rows: seq<Row>, i: nat)
    requires ColumnSpecs(rows).Ok?
    requires i < |rows| - 1 && |rows[i]| >= 2 && LastWithName(rows, i)
    ensures rows[i][1].Some?
    ensures Get(ColumnSpecs(rows).value, rows[i][0]) == Some(MetricsFor(rows[i][0], rows[i][1].value))
    decreases |rows|, 0
  {
    var n := |rows| - 1;
    ColumnSpecsSnoc(rows);
    SpecAt(rows, n);
    var d := ColumnSpecs(rows[..n]).value;
    var e := ColumnSpec(rows[n]).value;
    var name := rows[i][0];
    assert e.0 == rows[n][0] != name;
    PutGet(d, e.0, e.1, name);
    LastWithNameInit(rows, i);
    ColumnSpecsLastWins(rows[..n], i);
  }

  /** Each row of a successful first loop yields its name and metric set. */
  lemma SpecAt(rows: seq<Row>, i: nat)
    requires ColumnSpecs(rows).Ok? && i < |rows|
    ensures |rows[i]| >= 2 && rows[i][1].Some?
    ensures ColumnSpec(rows[i]).value == (rows[i][0], MetricsFor(rows[i][0], rows[i][1].value))
  {
    assert AllYieldSpecs(rows);
    assert ColumnSpec(rows[i]).Ok?;
  }

  /** The last row carrying its name, if it is not the final row, is still last among the rows before the final one. */
  lemma LastWithNameInit(rows: seq<Row>, i: nat)
    requires i < |rows| - 1 && |rows[i]| > 0 && LastWithName(rows, i)
    ensures rows[..|rows| - 1][i] == rows[i]
    ensures LastWithName(rows[..|rows| - 1], i)
  {
    var init := rows[..|rows| - 1];
    forall j | i < j < |init| && |init[j]| > 0 ensures init[j][0] != init[i][0] {
      assert init[j] == rows[j];
    }
  }

  /** One column's statistics: run its stats query and read the first row back in `order`. */
  function ColumnStats(order: ReadOrder, wh: Warehouse, schema: string, table: string, database: string,
                       name: Cell, m: MetricSpec): (r: Result<StatResult>)
    ensures var q := wh(BuildColumnStatsQuery(schema, table, Show(name), m), database);
      && (q.Err? ==> r == Err(Wrapped(ExecutingQuery, q.error)))
      && (q.Ok? ==> (r.Ok? <==> |q.value| > 0 && |q.value[0]| >= 6))
      && (q.Ok? && r.Err? ==> r.error == IndexOutOfRange)
      && (r.Ok? ==> q.Ok? && forall k :: r.value.Field(k) == q.value[0][ReadPosition(order, k)])
  {
    var rows :- ExecuteQuery(wh, BuildColumnStatsQuery(schema, table, Show(name), m), database);
    ReadStats(order, rows)
  }

  /**
    The second loop: one stats query per entry of the first loop's dict, in
    its order; the first failure aborts the whole loop.
   */
  function CollectStats(order: ReadOrder, wh: Warehouse, schema: string, table: string, database: string,
                        specs: Dict<Cell, MetricSpec>): (r: Result<Dict<Cell, StatResult>>)
    ensures r.Ok? <==> forall j :: 0 <= j < |specs| ==>
      ColumnStats(order, wh, schema, table, database, specs[j].0, specs[j].1).Ok?
    ensures r.Err? ==> exists j ::
      && 0 <= j < |specs|
      && ColumnStats(order, wh, schema, table, database, specs[j].0, specs[j].1) == Err(r.error)
      && forall i :: 0 <= i < j ==> ColumnStats(order, wh, schema, table, database, specs[i].0, specs[i].1).Ok?
    ensures r.Ok? ==> KeySeq(r.value) == KeySeq(specs)
    ensures r.Ok? ==> forall j :: 0 <= j < |specs| ==>
      r.value[j] == (specs[j].0, ColumnStats(order, wh, schema, table, database, specs[j].0, specs[j].1).value)
  {
    MapValues((name, m) => ColumnStats(order, wh, schema, table, database, name, m), specs)
  }

  /** The body of `get_table_metrics` inside its try block, reading stats in `order`. */
  function FetchMetrics(order: ReadOrder, wh: Warehouse, table: string, schema: string, database: string)
    : (r: Result<Dict<Cell, StatResult>>)
    ensures var q := wh(ShowTableInfo(table, schema, database), database);
      && (q.Err? ==> r == Err(Wrapped(ExecutingQuery, q.error)))
      && (q.Ok? && |q.value| == 0 ==> r == Ok([]))
      && (q.Ok? && !AllYieldSpecs(q.value) ==> r.Err? && FirstFailure(q.value, r.error))
      && (r.Ok? ==> q.Ok? && ColumnSpecs(q.value).Ok? && KeySeq(r.value) == KeySeq(ColumnSpecs(q.value).value))
      && (q.Ok? && ColumnSpecs(q.value).Ok? ==> r == CollectStats(order, wh, schema, table, database, ColumnSpecs(q.value).value))
  {
    var rows :- ExecuteQuery(wh, ShowTableInfo(table, schema, database), database);
    var specs :- ColumnSpecs(rows);
    CollectStats(order, wh, schema, table, database, specs)
  }

  /** `get_table_metrics` reading stats in `order`, every failure wrapped with the table. */
  function MetricsIn(order: ReadOrder, wh: Warehouse, table: string, schema: string, database: string)
    : (r: Result<Dict<Cell, StatResult>>)
    ensures r.Err? ==> r.error.Wrapped? && r.error.context == FetchingMetrics(table)
  {
    Within(FetchingMetrics(table), FetchMetrics(order, wh, table, schema, database))
  }

  /** `get_table_metrics` as written: statistics read back at positions 1..5 in the source's order. */
  function GetTableMetrics(wh: Warehouse, table: string, schema: string, database: string)
    : (r: Result<Dict<Cell, StatResult>>)
    ensures r.Err? ==> r.error.Wrapped? && r.error.context == FetchingMetrics(table)
  {
    MetricsIn(AsWritten, wh, table, schema, database)
  }

  /** `get_table_metrics` with each statistic read from the slot its SELECT computes it in. */
  function GetTableMetricsInSelectOrder(wh: Warehouse, table: string, schema: string, database: string)
    : (r: Result<Dict<Cell, StatResult>>)
    ensures r.Err? ==> r.error.Wrapped? && r.error.context == FetchingMetrics(table)
  {
    MetricsIn(SelectOrder, wh, table, schema, database)
  }

  /**
    No emptiness check: a describe result with no rows gives an empty dict,
    where the metadata operation reports NotFound. A failed describe query is
    wrapped twice, as in every operation.
   */
  lemma MetricsOnDescribeResult(order: ReadOrder, wh: Warehouse, table: string, schema: string, database: string)
    ensures var q := wh(ShowTableInfo(table, schema, database), database);
      var r := MetricsIn(order, wh, table, schema, database);
      && (q.Err? ==> r == Err(Wrapped(FetchingMetrics(table), Wrapped(ExecutingQuery, q.error))))
      && (q.Ok? && |q.value| == 0 ==> r == Ok([]))
      && (q.Ok? && |q.value| == 0 ==>
            GetTableMetadata(wh, table, schema, database) == Err(Wrapped(FetchingMetadata(table), NotFound)))
  {
  }

  /** The returned dict has exactly one key per distinct column name of the describe result. */
  lemma MetricsKeys(order: ReadOrder, wh: Warehouse, table: string, schema: string, database: string)
    requires MetricsIn(order, wh, table, schema, database).Ok?
    ensures var q := wh(ShowTableInfo(table, schema, database), database);
      var r := MetricsIn(order, wh, table, schema, database).value;
      && q.Ok? && AllHave(q.value, 1)
      && DistinctKeys(r) && Keys(r) == Names(q.value)
  {
    var rows := wh(ShowTableInfo(table, schema, database), database).value;
    var specs := ColumnSpecs(rows).value;
    ColumnSpecsKeys(rows);
    CollectKeys(MetricsIn(order, wh, table, schema, database).value, specs);
  }

  /** A successful metrics call is the second loop run over the first loop's dict. */
  lemma MetricsUnfold(order: ReadOrder, wh: Warehouse, table: string, schema: string, database: string)
    requires MetricsIn(order, wh, table, schema, database).Ok?
    ensures var q := wh(ShowTableInfo(table, schema, database), database);
      && q.Ok? && ColumnSpecs(q.value).Ok?
      && MapValues((name, m) => ColumnStats(order, wh, schema, table, database, name, m), ColumnSpecs(q.value).value)
         == MetricsIn(order, wh, table, schema, database)
  {
  }

  /**
    Under each column name sits the result of the stats query built from the
    metric set of that name's LAST describe row: a duplicate name overwrites.
   */
  lemma MetricsLastRowWins(order: ReadOrder, wh: Warehouse, table: string, schema: string, database: string, i: nat)
    requires MetricsIn(order, wh, table, schema, database).Ok?
    requires var q := wh(ShowTableInfo(table, schema, database), database);
      q.Ok? && i < |q.value| && |q.value[i]| >= 2 && LastWithName(q.value, i)
    ensures var rows := wh(ShowTableInfo(table, schema, database), database).value;
      var name := rows[i][0];
      && rows[i][1].Some?
      && var got := Get(MetricsIn(order, wh, table, schema, database).value, name);
         got.Some? && ColumnStats(order, wh, schema, table, database, name, MetricsFor(name, rows[i][1].value))
                      == Ok(got.value)
  {
    var rows := wh(ShowTableInfo(table, schema, database), database).value;
    MetricsUnfold(order, wh, table, schema, database);
    var specs := ColumnSpecs(rows).value;
    var f := (name, m) => ColumnStats(order, wh, schema, table, database, name, m);
    var r := MetricsIn(order, wh, table, schema, database).value;
    ColumnSpecsKeys(rows);
    ColumnSpecsLastWins(rows, i);
    var name := rows[i][0];
    var m := MetricsFor(name, rows[i][1].value);
    var j :| 0 <= j < |specs| && specs[j] == (name, m);
    CollectKeys(r, specs);
    assert r[j] == (name, f(name, m).value);
    GetAt(r, j);
  }

  /** Dicts with the same key sequence have the same key set and the same distinctness. */
  lemma CollectKeys<V, W>(r: Dict<Cell, V>, specs: Dict<Cell, W>)
    requires KeySeq(r) == KeySeq(specs)
    ensures |r| == |specs|
    ensures forall j :: 0 <= j < |r| ==> r[j].0 == specs[j].0
    ensures Keys(r) == Keys(specs)
    ensures DistinctKeys(specs) ==> DistinctKeys(r)
  {
    assert |KeySeq(r)| == |r|;
    forall j | 0 <= j < |r| ensures r[j].0 == specs[j].0 {
      assert KeySeq(r)[j] == r[j].0;
    }
  }

  /** In a dict with distinct keys, the entry at index `j` is what its key looks up. */
  lemma GetAt<V>(d: Dict<Cell, V>, j: nat)
    requires j < |d| && DistinctKeys(d)
    ensures Get(d, d[j].0) == Some(d[j].1)
  {
    var g := Get(d, d[j].0);
    var i :| 0 <= i < |d| && d[i] == (d[j].0, g.value);
    assert i == j;
  }

  /**
    As written, every numeric column's `mean` comes back null: it is read
    from the `null AS unique_count` slot, whatever the warehouse computed.
   */
  lemma ColumnStatsAsWrittenLosesMean(wh: Warehouse, schema: string, table: string, database: string,
                                     name: Cell, rawType: string, eval: string -> Cell)
    requires Helper.CleanDataType(rawType) in NumericTypes
    requires var m := MetricsFor(name, rawType);
      wh(BuildColumnStatsQuery(schema, table, Show(name), m), database)
      == Ok([Evaluate(SelectSlots(Show(name), m), eval)])
    ensures var s := ColumnStats(AsWritten, wh, schema, table, database, name, MetricsFor(name, rawType));
      s.Ok? && s.value.mean == None && s.value.uniqueCount == eval(Aggregate(Max, Show(name)))
  {
    AsWrittenNumericReadBack(Show(name), Helper.CleanDataType(rawType), eval);
  }

  /**
    Read in SELECT order, a numeric column's `mean` is the value of its AVG
    and its `unique_count` is null, as the per-branch contract requires.
   */
  lemma ColumnStatsInSelectOrderKeepsMean(wh: Warehouse, schema: string, table: string, database: string,
                                         name: Cell, rawType: string, eval: string -> Cell)
    requires Helper.CleanDataType(rawType) in NumericTypes
    requires var m := MetricsFor(name, rawType);
      wh(BuildColumnStatsQuery(schema, table, Show(name), m), database)
      == Ok([Evaluate(SelectSlots(Show(name), m), eval)])
    ensures var s := ColumnStats(SelectOrder, wh, schema, table, database, name, MetricsFor(name, rawType));
      s.Ok? && s.value.mean == eval(Aggregate(Mean, Show(name))) && s.value.uniqueCount == None
  {
    SelectOrderNumericReadBack(Show(name), Helper.CleanDataType(rawType), eval);
  }

  /**
    The operation as written loses every numeric column's mean: whenever it
    succeeds and the column's stats query is answered faithfully, the entry
    under the column's name has a null `mean` and its MAX as `unique_count`.
   */
  lemma GetTableMetricsLosesMean(wh: Warehouse, table: string, schema: string, database: string,
                                 i: nat, eval: string -> Cell)
    requires GetTableMetrics(wh, table, schema, database).Ok?
    requires var q := wh(ShowTableInfo(table, schema, database), database);
      && q.Ok? && i < |q.value| && |q.value[i]| >= 2 && LastWithName(q.value, i)
      && q.value[i][1].Some? && Helper.CleanDataType(q.value[i][1].value) in NumericTypes
      && var name := q.value[i][0];
         var m := MetricsFor(name, q.value[i][1].value);
         wh(BuildColumnStatsQuery(schema, table, Show(name), m), database)
         == Ok([Evaluate(SelectSlots(Show(name), m), eval)])
    ensures var rows := wh(ShowTableInfo(table, schema, database), database).value;
      var name := rows[i][0];
      var got := Get(GetTableMetrics(wh, table, schema, database).value, name);
      && got.Some?
      && got.value.mean == None
      && got.value.uniqueCount == eval(Aggregate(Max, Show(name)))
  {
    var rows: seq<Row> := wh(ShowTableInfo(table, schema, database), database).value;
    MetricsLastRowWins(AsWritten, wh, table, schema, database, i);
    ColumnStatsAsWrittenLosesMean(wh, schema, table, database, rows[i][0], rows[i][1].value, eval);
  }

  /**
    The corrected operation keeps it: under the same conditions the entry
    has the column's AVG as `mean` and a null `unique_count`.
   */
  lemma GetTableMetricsInSelectOrderKeepsMean(wh: Warehouse, table: string, schema: string, database: string,
                                              i: nat, eval: string -> Cell)
    requires GetTableMetricsInSelectOrder(wh, table, schema, database).Ok?
    requires var q := wh(ShowTableInfo(table, schema, database), database);
      && q.Ok? && i < |q.value| && |q.value[i]| >= 2 && LastWithName(q.value, i)
      && q.value[i][1].Some? && Helper.CleanDataType(q.value[i][1].value) in NumericTypes
      && var name := q.value[i][0];
         var m := MetricsFor(name, q.value[i][1].value);
         wh(BuildColumnStatsQuery(schema, table, Show(name), m), database)
         == Ok([Evaluate(SelectSlots(Show(name), m), eval)])
    ensures var rows := wh(ShowTableInfo(table, schema, database), database).value;
      var name := rows[i][0];
      var got := Get(GetTableMetricsInSelectOrder(wh, table, schema, database).value, name);
      && got.Some?
      && got.value.mean == eval(Aggregate(Mean, Show(name)))
      && got.value.uniqueCount == None
  {
    var rows: seq<Row> := wh(ShowTableInfo(table, schema, database), database).value;
    MetricsLastRowWins(SelectOrder, wh, table, schema, database, i);
    ColumnStatsInSelectOrderKeepsMean(wh, schema, table, database, rows[i][0], rows[i][1].value, eval);
  }
}
